=== FILE: README.md ===
# myshorts feed logic in Dafny

A verified model of the feed logic behind the myshorts demo. The demo is a
vertical "shorts" player backed by a small Express/Redis/Socket.io server.
The model covers three pure pieces of it. The I/O and UI around them are left out.

- **Server catalog and seen sets** (`server.js`). The server keeps a catalog of
  feed items. The *unseen query* scans that catalog in order and returns
  at most `limit` items (one when `limit <= 0`) whose id is not in the
  user's seen set.
  *Mark-seen* adds an id to a user's seen set and refreshes its 60-day expiry.
  *Admin push* unshifts a batch onto the catalog, skipping ids that are
  already present. It then sends each connected session its next unseen batch.
- **Client queue** (`src/components/ShortsPlayer.jsx`). The player holds a queue, a
  cursor, a local set of used ids and an in-flight flag. A *refill*
  generates demo items whose ids it has not used before. It merges them into
  the queue by id, the way a JavaScript `Map` does, then keeps at most the last 50.
  *Next* and *Prev* move the cursor. A *refill effect* asks for more items
  when the queue is short or the cursor is near its end.
- **Display title**. Titles longer than 24 characters are cut to 22
  characters followed by an ellipsis.

Files and modules:

| file | module | contents |
|---|---|---|
| `feed.dfy` | `Feed` | `FeedItem`, `Option`, `Result`, id sets, id-distinctness, the first-come filter `FirstNew`, `Reverse` |
| `catalog.dfy` | `Catalog` | the unseen query (`Scan`, `GetUnseenForUser`) and its reference (`Unseen`, `Take`, `BatchSize`); the admin push loop (`PushOne`, `PushAll`) |
| `seen_store.dfy` | `SeenStore` | per-user seen sets with their expiry; `MarkSeen` |
| `server.dfy` | `Server` | server state, the request handler `Handle`, the push fan-out |
| `client_queue.dfy` | `ClientQueue` | `Map.set` as `Upsert`, the merge, the 50-item cap |
| `player.dfy` | `Player` | demo item generation, the refill, cursor moves, the refill effect, `DisplayTitle` |

Randomness, the clock, Redis and the socket layer are inputs to the model:

- Each attempt of the generator consumes one `Draw`: the video id picked from the sample pool and the salt appended to it.
- The seen store is a map from user id to seen set.
- The connected sessions of an admin push are a sequence of user ids.

Where the code differs from what one might expect of a feed, the model
follows the code:

- Admin push admits new items in **reverse** input order, because each one is unshifted in turn.
- The merge **overwrites** the value of an id already queued and keeps its position.
- The cap drops items from the **front** whatever the cursor points at. The cursor is not adjusted, so after a cap that drops `d` items it names the item that was `d` places further on (`ClientQueue.CapShiftsCursor`).
- The refill effect fires when `queue.length - currentIndex <= 4`, so four remaining items already count as low.
- A limit of zero or below still returns one unseen item, because the `>= limit` test runs only after the push.

## Model

| member | source | states |
|---|---|---|
| Catalog.GetUnseenForUser | server.js:27-40 | `GetUnseenForUser` runs the loop `Scan`. The result is the first `BatchSize(limit)` unseen catalog items, in catalog order. No item's id is in the seen set. At most `limit` items come back for `limit >= 1`, and at most one for `limit <= 0`. When fewer unseen items exist, all of them come back. |
| Catalog.ScanMatchesReference | server.js:31-39 | The loop `Scan` skips seen ids and breaks right after the push that reaches `limit`. It returns what it already collected, followed by the leading unseen items the remaining budget allows. |
| Catalog.UnseenMembers | server.js:33-35 | An item is kept by the filter exactly when it is in the catalog and its id is not seen. The filter never grows the sequence. |
| Catalog.QueryScenario | server.js:27-40 | Six items with ids 1..6, seen set {2, 4} and limit 3 give items 1, 3, 5, in that order. |
| Catalog.PushAllShape | server.js:78-81 | `PushAll` folds `PushOne` (unshift unless the id is present) over the batch. After it, the admitted items sit in front in reverse input order. The old catalog follows unchanged as a suffix. |
| Catalog.PushAllSpec | server.js:78-81 | The catalog grows by exactly the number of distinct new ids. Its id set becomes the old ids plus the batch's ids. Id-distinctness is preserved. |
| Catalog.PushStep | server.js:80 | Batch item `i` is skipped when its id is in the catalog or carried by an earlier batch item. Otherwise exactly that item is put in front. |
| Catalog.PushKnownIsNoOp | server.js:78-81 | Pushing a batch whose ids are all in the catalog leaves the catalog unchanged. |
| Feed.FirstNewSpec | server.js:78-81 | The first-come filter admits exactly the batch ids not known before, each once, and only items of the batch. |
| SeenStore.MarkSeen | server.js:51-58 | A missing or empty id is rejected. Otherwise the id joins the user's seen set, whether or not any catalog item has it, and the expiry is reset to 60 days. Other users' entries are untouched. |
| SeenStore.MarkSeenIdempotent | server.js:54-56 | Marking the same id twice leaves the same store as marking it once. |
| SeenStore.MarkSeenCommutes | server.js:54 | Two marks give the same store in either order, including for the same user. |
| Server.FanOut | server.js:83-88 | Each connected session gets one delivery. It holds at most 6 items: that user's leading unseen items in the given state. |
| Server.Handle | server.js:43-90 | The next-items query and identify leave the state unchanged and answer with the unseen query. A rejected mark-seen changes nothing, and an accepted one changes only that user's seen set. An admin push reports the raw batch length as `pushed` and keeps the seen store. The new catalog is the admitted items in reverse input order in front of the old catalog, so it holds the old ids plus the batch ids. The fan-out runs against the new catalog. |
| Server.CatalogStaysDistinct | server.js:78-81 | Catalog ids stay distinct under every request. |
| Server.InitialCatalogDistinct | server.js:19-24 | The built-in catalog has distinct ids. |
| Server.CatalogDistinctAfterRun | server.js:78-81 | Any sequence of requests keeps a distinct catalog distinct, so every state reachable from the initial one has distinct catalog ids. |
| Server.SeenMonotone | server.js:51-58 | No sequence of requests removes an id from any user's seen set. |
| Server.SeenIdsNeverReturned | server.js:27-40 | Once a user has marked an id seen (it is in their seen set), no later query for that user returns an item with that id, whatever its limit. The 60-day expiry that would clear the set is not modelled. |
| ClientQueue.UpsertSpec | src/components/ShortsPlayer.jsx:73 | `Upsert` is one `Map.set`. On an id-distinct queue it overwrites an existing id in place and keeps the length. A new id is appended. Id-distinctness is preserved. |
| ClientQueue.UpsertAllIds | src/components/ShortsPlayer.jsx:72-74 | Setting a batch adds exactly the batch's ids and keeps ids distinct. |
| ClientQueue.UpsertAllOfFresh | src/components/ShortsPlayer.jsx:72 | Building the map from an id-distinct queue gives back that queue. |
| ClientQueue.UpsertAllSpec | src/components/ShortsPlayer.jsx:73-74 | `UpsertAll` is the `forEach` of `Map.set`. Every old entry keeps its position and id, and takes the batch's value when the batch carries its id. The batch's new ids follow in batch order. |
| ClientQueue.MergeSpec | src/components/ShortsPlayer.jsx:71-74 | `Merge` builds the map from the queue and sets the batch into it. The result has no duplicate ids. Existing ids keep their positions and take the new values. New ids are appended in generation order. The length grows by the number of new ids. |
| ClientQueue.MergeIdempotent | src/components/ShortsPlayer.jsx:71-74 | Merging the same id-distinct batch twice gives the same queue as merging it once. |
| ClientQueue.UpsertPresentIsNoOp | src/components/ShortsPlayer.jsx:73 | Setting values that already sit under their own ids changes nothing. |
| ClientQueue.MergeOfFresh | src/components/ShortsPlayer.jsx:72-74 | A batch of ids new to the queue is simply appended. |
| ClientQueue.Cap | src/components/ShortsPlayer.jsx:76-79 | A queue over 50 items is cut to exactly its last 50. A shorter queue is unchanged. The result never exceeds 50 and keeps ids distinct. |
| ClientQueue.CapShiftsCursor | src/components/ShortsPlayer.jsx:76-79 | After a cap that dropped `d` items, an unchanged cursor `c` names the item that stood at `c + d`. |
| Player.GenerateDemoItems | src/components/ShortsPlayer.jsx:51-68 | The loop yields at most `count` items in at most `6 * count` attempts, and stops only when it has `count` items or has used all attempts. Each yielded id was unused and is recorded as used. The yielded items are the first-come new items of the attempts made, so no two share an id. |
| Player.BatchFromDraws | src/components/ShortsPlayer.jsx:55-67 | Every generated item was built from one of the draws. |
| Player.DemoItemShape | src/components/ShortsPlayer.jsx:57-67 | `DemoItem` builds one generated item. Its id starts with `gen_<vid>_`. Its url is `https://www.youtube.com/embed/<vid>` and its thumbnail is `https://i.ytimg.com/vi/<vid>/hqdefault.jpg`. Its title is `Auto Short • <vid>` and its channel is `AutoGen`. |
| Player.ThumbFromVidIdInjective | src/components/ShortsPlayer.jsx:36-38 | Different video ids give different thumbnail urls. |
| Player.InitialState | src/components/ShortsPlayer.jsx:21-32 | The mount state's queue is exactly the four initial items, with cursor 0 and no refill in flight. The used ids are exactly their ids. The state satisfies the client invariant. |
| Player.FetchMoreDemo | src/components/ShortsPlayer.jsx:47-83 | While a refill is in flight, the call changes nothing. Otherwise the batch is what the generation loop yields: the first-come unused ids of the attempts made. The loop stops at `count` items or after `6 * count` attempts. The batch ids are recorded as used. The queue becomes the capped merge, the cursor stays, the flag is cleared and the client invariant holds again. On a well-formed client the merge is a plain append. |
| Player.RefillKeepsWellFormed | src/components/ShortsPlayer.jsx:58-79 | A batch of unused ids merged into a well-formed queue is appended whole. After the cap, the queue stays id-distinct, within 50 items and covered by the used ids, and the cursor still points into it. |
| Player.GoNext | src/components/ShortsPlayer.jsx:97-107 | `NextMove` decides the move. The cursor advances by exactly one when a next item exists, and nothing else changes. Otherwise the cursor stays put and a refill of 8 runs: the queue becomes the capped merge with the generated batch, and the batch ids are recorded as used. The client invariant is kept, so the cursor stays in `[0, queue.length - 1]`. |
| Player.GoPrev | src/components/ShortsPlayer.jsx:109-111 | The cursor steps back by one and never goes below 0. Nothing else changes, and the client invariant is kept. |
| Player.RefillEffect | src/components/ShortsPlayer.jsx:86-94 | A refill runs exactly when `queue.length < 6` or `queue.length - currentIndex <= 4`. Two run when both hold. None run otherwise, and then the state is unchanged. Each refill that runs generates a batch of 8 from ids not yet used. On a well-formed client the queue becomes the old queue plus the first batch, capped, plus the second batch, capped again. Both batches are recorded as used. The cursor stays, and the client invariant is kept. |
| Player.RefillIf | src/components/ShortsPlayer.jsx:88-91 | A guarded refill runs the generator and the merge only when its condition holds and no refill is in flight. Otherwise it leaves the state unchanged with an empty batch. |
| Player.DisplayTitle | src/components/ShortsPlayer.jsx:165 | A displayed title never exceeds 24 characters. A longer title becomes its first 22 characters followed by "…", 23 in total. Shorter ones are unchanged. |
| Player.DisplayTitleIdempotent | src/components/ShortsPlayer.jsx:165 | A displayed title displays as itself. |

## Left out

- Redis I/O (`sismember`, `sadd`, `expire`). The seen store is a map from user id to seen set. Expiry is recorded as the TTL value the mark sets; there is no clock, so a set expiring is not modelled.
- Express routing, body parsing, CORS and HTTP responses. The count reaches the query as an `int`, so a count that `parseInt` turns into `NaN` is not modelled. Such a count would return every unseen item.
- The `'anon'` user default is taken as done by the caller. The routes default differently: `||` in the query route and the push fan-out, a destructuring default in mark-seen and identify. An empty or `null` user id can therefore land under different keys; this is not modelled.
- Request ids are strings or absent. A JSON id of another type, such as a number, is not modelled. Absent, `null` and `""` all count as a missing id.
- Socket.io connect, `identify` room joins and delivery. Sessions are given as user ids. Each identify or push answer is the pure query on the state.
- Concurrency between awaited Redis calls and between requests for the same user. Each request runs to completion in the model.
- `Math.random`, `Date.now` and the sample pool. The generator reads a sequence of draws. Player.GenerateDemoItems requires at least `6 * count` draws, because the loop may make that many attempts.
- React scheduling: state updaters, effect timing, refs and stale closures. `GoNext` compares against the queue of the state it is given. The refill effect tests both conditions against the queue as it stood before either refill. `fetchMoreDemo` sets and clears `loadingRef` within one synchronous call, so its guard never fires in the source. The model keeps the flag in the state for fidelity, but no state reachable from `Player.InitialState` has it set, so the `s.loading` clauses describe a case that cannot arise.
- The "Load more" button is `fetchMoreDemo(12)`, i.e. `Player.FetchMoreDemo` with `count` 12. It has no separate member.
- Rendering: the iframe, the upcoming-thumbnail slice and the disabled Prev button.
- Player.DisplayTitle: lengths are counted in Unicode scalar values. JavaScript counts UTF-16 code units, so titles with characters outside the Basic Multilingual Plane are cut at a different point.
- ClientQueue.UpsertAllSpec: stated only for an id-distinct batch. Every generated batch is id-distinct (Player.GenerateDemoItems).
- ClientQueue.MergeSpec: stated only for an id-distinct queue and an id-distinct batch. The queue is always id-distinct (Player.WellFormed).
- ClientQueue.MergeIdempotent: stated only for an id-distinct batch, which every generated batch is.

=== FILE: catalog.dfy ===
/** The server's in-memory catalog: the unseen-items query (a bounded,
    order-preserving scan filtered by one user's seen set) and the admin
    push that front-inserts a batch while skipping known ids. */
module Catalog {
  import opened Feed

  /** Reference filter: the catalog items whose id is not in `seen`, in
      catalog order. */
  function Unseen(catalog: seq<FeedItem>, seen: set<string>): seq<FeedItem>
  {
    if |catalog| == 0 then []
    else if catalog[0].id in seen then Unseen(catalog[1..], seen)
    else [catalog[0]] + Unseen(catalog[1..], seen)
  }

  /** The filter keeps exactly the unseen catalog items. */
  lemma {:induction false} UnseenMembers(catalog: seq<FeedItem>, seen: set<string>)
    ensures forall x :: x in Unseen(catalog, seen) <==> x in catalog && x.id !in seen
    ensures |Unseen(catalog, seen)| <= |catalog|
    decreases |catalog|
  {
    if |catalog| > 0 {
      UnseenMembers(catalog[1..], seen);
      assert catalog == [catalog[0]] + catalog[1..];
    }
  }

  /** The first `n` elements of `xs`, or all of them when there are fewer. */
  function Take<T>(xs: seq<T>, n: nat): (r: seq<T>)
    ensures |r| == if |xs| < n then |xs| else n
    ensures r == xs[..|r|]
  {
    if |xs| <= n then xs else xs[..n]
  }

  /** How many items one query may return: the `>= limit` test runs only
      after an item has been pushed, so a limit of zero or below still
      admits one item. */
  function BatchSize(limit: int): nat
  {
    if limit < 1 then 1 else limit
  }

  /** The query loop as written: walk the catalog, skip seen ids, push the
      rest onto `acc`, and stop right after the push that makes
      `|acc| >= limit`. */
  function Scan(items: seq<FeedItem>, seen: set<string>, limit: int, acc: seq<FeedItem>): seq<FeedItem>
    decreases |items|
  {
    if |items| == 0 then acc
    else if items[0].id in seen then Scan(items[1..], seen, limit, acc)
    else if |acc| + 1 >= limit then acc + [items[0]]
    else Scan(items[1..], seen, limit, acc + [items[0]])
  }

  /** The next unseen items for a user whose seen set is `seen`. */
  function GetUnseenForUser(catalog: seq<FeedItem>, seen: set<string>, limit: int): (r: seq<FeedItem>)
    ensures r == Take(Unseen(catalog, seen), BatchSize(limit))
    ensures forall i :: 0 <= i < |r| ==> r[i] in catalog && r[i].id !in seen
    ensures limit >= 1 ==> |r| <= limit
    ensures limit <= 0 ==> |r| <= 1
    ensures |Unseen(catalog, seen)| <= BatchSize(limit) ==> r == Unseen(catalog, seen)
  {
    ScanMatchesReference(catalog, seen, limit, []);
    UnseenMembers(catalog, seen);
    Scan(catalog, seen, limit, [])
  }

  /** The loop computes the reference: whatever has been collected, followed
      by as many leading unseen items as the remaining budget allows. */
  lemma {:induction false} ScanMatchesReference(items: seq<FeedItem>, seen: set<string>, limit: int, acc: seq<FeedItem>)
    requires |acc| < BatchSize(limit)
    ensures Scan(items, seen, limit, acc) == acc + Take(Unseen(items, seen), BatchSize(limit) - |acc|)
    decreases |items|
  {
    if |items| == 0 {
    } else if items[0].id in seen {
      ScanMatchesReference(items[1..], seen, limit, acc);
    } else {
      var x := items[0];
      var rest := Unseen(items[1..], seen);
      assert Unseen(items, seen) == [x] + rest;
      var n := BatchSize(limit) - |acc|;
      if |acc| + 1 >= limit {
        assert n == 1;
        assert Take([x] + rest, 1) == [x];
      } else {
        ScanMatchesReference(items[1..], seen, limit, acc + [x]);
        assert Take([x] + rest, n) == [x] + Take(rest, n - 1);
      }
    }
  }

  /** One step of the push loop: unshift `it` unless its id is already
      present. */
  function PushOne(catalog: seq<FeedItem>, it: FeedItem): seq<FeedItem>
  {
    if it.id in IdSet(catalog) then catalog else [it] + catalog
  }

  /** The push loop, folding `PushOne` over the batch in input order. */
  function PushAll(catalog: seq<FeedItem>, items: seq<FeedItem>): seq<FeedItem>
    decreases |items|
  {
    if |items| == 0 then catalog
    else PushOne(PushAll(catalog, items[..|items| - 1]), items[|items| - 1])
  }

  /** After pushing, the admitted items sit in front in reverse input order
      and the old catalog follows unchanged. */
  lemma {:induction false} PushAllShape(catalog: seq<FeedItem>, items: seq<FeedItem>)
    ensures PushAll(catalog, items) == Reverse(FirstNew(IdSet(catalog), items)) + catalog
    decreases |items|
  {
    if |items| == 0 {
      assert Reverse(FirstNew(IdSet(catalog), items)) == [];
    } else {
      var p := items[..|items| - 1];
      var x := items[|items| - 1];
      assert items == p + [x];
      PushAllShape(catalog, p);
      PushShapeStep(catalog, p, x);
    }
  }

  lemma {:induction false} PushShapeStep(catalog: seq<FeedItem>, p: seq<FeedItem>, x: FeedItem)
    requires PushAll(catalog, p) == Reverse(FirstNew(IdSet(catalog), p)) + catalog
    ensures PushAll(catalog, p + [x]) == Reverse(FirstNew(IdSet(catalog), p + [x])) + catalog
  {
    var known := IdSet(catalog);
    var f := FirstNew(known, p);
    var pc := PushAll(catalog, p);
    assert PushAll(catalog, p + [x]) == PushOne(pc, x) by {
      assert (p + [x])[..|p|] == p;
    }
    assert IdSet(pc) == known + IdSet(p) by {
      FirstNewSpec(known, p);
      IdSetConcat(Reverse(f), catalog);
      IdSetReverse(f);
    }
    FirstNewSnoc(known, p, x);
    PushOneShape(catalog, known, p, x, f, pc);
  }

  /** The push step on a catalog already in shape, with the recursive
      definitions kept out of sight. */
  lemma PushOneShape(catalog: seq<FeedItem>, known: set<string>, p: seq<FeedItem>, x: FeedItem,
                     f: seq<FeedItem>, pc: seq<FeedItem>)
    requires pc == Reverse(f) + catalog
    requires IdSet(pc) == known + IdSet(p)
    ensures PushOne(pc, x)
         == Reverse(f + (if x.id in known || x.id in IdSet(p) then [] else [x])) + catalog
  {
    if !(x.id in known || x.id in IdSet(p)) {
      ReverseSnoc(f, x);
    }
  }

  /** What the admin push does to the catalog: the old catalog survives as a
      suffix, the admitted items (first occurrences of ids not yet present)
      sit in front in reverse input order, the length grows by the number of
      distinct new ids, and id-distinctness is preserved. */
  lemma {:induction false} PushAllSpec(catalog: seq<FeedItem>, items: seq<FeedItem>)
    ensures PushAll(catalog, items) == Reverse(FirstNew(IdSet(catalog), items)) + catalog
    ensures |PushAll(catalog, items)| == |catalog| + |IdSet(items) - IdSet(catalog)|
    ensures IdSet(PushAll(catalog, items)) == IdSet(catalog) + IdSet(items)
    ensures DistinctIds(catalog) ==> DistinctIds(PushAll(catalog, items))
  {
    var known := IdSet(catalog);
    var f := FirstNew(known, items);
    PushAllShape(catalog, items);
    FirstNewSpec(known, items);
    IdSetReverse(f);
    IdSetConcat(Reverse(f), catalog);
    if DistinctIds(catalog) {
      DistinctReverse(f);
      DistinctConcat(Reverse(f), catalog);
    }
  }

  /** Pushing a batch whose ids are all in the catalog changes nothing. */
  lemma {:induction false} PushKnownIsNoOp(catalog: seq<FeedItem>, items: seq<FeedItem>)
    requires IdSet(items) <= IdSet(catalog)
    ensures PushAll(catalog, items) == catalog
  {
    FirstNewOfKnown(IdSet(catalog), items);
    PushAllShape(catalog, items);
  }

  /** Processing the batch's item `i` either unshifts exactly that item or,
      when its id is already in the catalog or carried by an earlier item of
      the same batch, leaves the catalog as it was. */
  lemma PushStep(catalog: seq<FeedItem>, items: seq<FeedItem>, i: nat)
    requires i < |items|
    ensures items[i].id in IdSet(catalog) || items[i].id in IdSet(items[..i])
            ==> PushAll(catalog, items[..i + 1]) == PushAll(catalog, items[..i])
    ensures !(items[i].id in IdSet(catalog) || items[i].id in IdSet(items[..i]))
            ==> PushAll(catalog, items[..i + 1]) == [items[i]] + PushAll(catalog, items[..i])
  {
    assert items[..i + 1] == items[..i] + [items[i]];
    FirstNewSnoc(IdSet(catalog), items[..i], items[i]);
    PushAllShape(catalog, items[..i]);
    PushAllShape(catalog, items[..i + 1]);
    var f := FirstNew(IdSet(catalog), items[..i]);
    assert Reverse(f + [items[i]]) == [items[i]] + Reverse(f);
  }

  lemma UnseenStep(c: seq<FeedItem>, seen: set<string>, k: nat, rest: seq<FeedItem>)
    requires k < |c| && Unseen(c[k + 1..], seen) == rest
    ensures Unseen(c[k..], seen) == if c[k].id in seen then rest else [c[k]] + rest
  {
    assert c[k..][1..] == c[k + 1..];
  }

  /** Six catalog items, two of them seen, three asked for: the first,
      third and fifth come back, in catalog order. */
  lemma QueryScenario(c: seq<FeedItem>)
    requires |c| == 6
    requires c[0].id == "1" && c[1].id == "2" && c[2].id == "3"
    requires c[3].id == "4" && c[4].id == "5" && c[5].id == "6"
    ensures GetUnseenForUser(c, {"2", "4"}, 3) == [c[0], c[2], c[4]]
  {
    UnseenScenario(c);
    var u := [c[0], c[2], c[4], c[5]];
    assert Take(u, BatchSize(3)) == [c[0], c[2], c[4]];
  }

  lemma UnseenScenario(c: seq<FeedItem>)
    requires |c| == 6
    requires c[0].id == "1" && c[1].id == "2" && c[2].id == "3"
    requires c[3].id == "4" && c[4].id == "5" && c[5].id == "6"
    ensures Unseen(c, {"2", "4"}) == [c[0], c[2], c[4], c[5]]
  {
    var seen := {"2", "4"};
    assert c[6..] == [];
    assert Unseen(c[5..], seen) == [c[5]] by {
      assert c[5].id !in seen;
      UnseenStep(c, seen, 5, []);
    }
    assert Unseen(c[4..], seen) == [c[4], c[5]] by {
      assert c[4].id !in seen;
      UnseenStep(c, seen, 4, [c[5]]);
    }
    assert Unseen(c[3..], seen) == [c[4], c[5]] by {
      assert c[3].id in seen;
      UnseenStep(c, seen, 3, [c[4], c[5]]);
    }
    assert Unseen(c[2..], seen) == [c[2], c[4], c[5]] by {
      assert c[2].id !in seen;
      UnseenStep(c, seen, 2, [c[4], c[5]]);
    }
    assert Unseen(c[1..], seen) == [c[2], c[4], c[5]] by {
      assert c[1].id in seen;
      UnseenStep(c, seen, 1, [c[2], c[4], c[5]]);
    }
    assert c[0].id !in seen;
    UnseenStep(c, seen, 0, [c[2], c[4], c[5]]);
    assert c[0..] == c;
  }
}

=== FILE: client_queue.dfy ===
/** The player's queue update: newly generated items are merged into the
    queue by id, the way a JavaScript `Map` keyed by id keeps insertion
    order, and the merged queue is capped to its last `MaxBuffer` entries. */
module ClientQueue {
  import opened Feed

  /** Largest number of items the player keeps queued. */
  const MaxBuffer: nat := 50

  /** `Map.set(x.id, x)` on a map viewed as its value sequence: an existing id
      keeps its position and takes the new value; a new id goes last. */
  function Upsert(q: seq<FeedItem>, x: FeedItem): seq<FeedItem>
    decreases |q|
  {
    if |q| == 0 then [x]
    else if q[0].id == x.id then [x] + q[1..]
    else [q[0]] + Upsert(q[1..], x)
  }

  /** `forEach(it => map.set(it.id, it))`: upsert the batch in order. */
  function UpsertAll(q: seq<FeedItem>, xs: seq<FeedItem>): seq<FeedItem>
    decreases |xs|
  {
    if |xs| == 0 then q
    else Upsert(UpsertAll(q, xs[..|xs| - 1]), xs[|xs| - 1])
  }

  /** The queue update's merge: build the map from the previous queue, set
      every new item into it, and read the values back in insertion order. */
  function Merge(prev: seq<FeedItem>, batch: seq<FeedItem>): seq<FeedItem>
  {
    UpsertAll(UpsertAll([], prev), batch)
  }

  /** Keep the last `MaxBuffer` items when there are more; the cut is made
      at the front, whatever the cursor points at. */
  function Cap(q: seq<FeedItem>): (r: seq<FeedItem>)
    ensures |r| == if |q| > MaxBuffer then MaxBuffer else |q|
    ensures r == q[|q| - |r|..]
    ensures DistinctIds(q) ==> DistinctIds(r)
  {
    if |q| > MaxBuffer then q[|q| - MaxBuffer..] else q
  }

  /** After a cap that dropped `d` items, an unchanged cursor `c` names the
      item that stood at `c + d` before: the player's position shifts
      forward by the number of evicted items. */
  lemma CapShiftsCursor(q: seq<FeedItem>, c: nat)
    requires |q| > MaxBuffer && c < MaxBuffer
    ensures Cap(q)[c] == q[c + (|q| - MaxBuffer)]
  {
  }

  lemma IdSetCons(x: FeedItem, q: seq<FeedItem>)
    ensures IdSet([x] + q) == {x.id} + IdSet(q)
  {
    IdSetConcat([x], q);
    assert IdSet([x]) == {x.id} by {
      assert [x][0].id == x.id;
    }
  }

  /** The tail of an id-distinct sequence is id-distinct and avoids the
      head's id. */
  lemma DistinctTail(q: seq<FeedItem>)
    requires DistinctIds(q) && |q| > 0
    ensures DistinctIds(q[1..]) && q[0].id !in IdSet(q[1..])
  {
    var rest := q[1..];
    forall i, j | 0 <= i < j < |rest|
      ensures rest[i].id != rest[j].id
    {
      assert rest[i] == q[i + 1] && rest[j] == q[j + 1];
    }
    forall i | 0 <= i < |rest|
      ensures rest[i].id != q[0].id
    {
      assert rest[i] == q[i + 1];
    }
  }

  /** What one `Map.set` does to a value sequence `q`, with `r` the result. */
  predicate UpsertFacts(q: seq<FeedItem>, x: FeedItem, r: seq<FeedItem>)
  {
    && IdSet(r) == IdSet(q) + {x.id}
    && (x.id !in IdSet(q) ==> r == q + [x])
    && (DistinctIds(q) ==> DistinctIds(r))
    && (DistinctIds(q) && x.id in IdSet(q) ==>
          && |r| == |q|
          && forall i :: 0 <= i < |q| ==> r[i] == (if q[i].id == x.id then x else q[i]))
  }

  /** What one `Map.set` does to an id-distinct value sequence. */
  lemma {:induction false} UpsertSpec(q: seq<FeedItem>, x: FeedItem)
    ensures IdSet(Upsert(q, x)) == IdSet(q) + {x.id}
    ensures x.id !in IdSet(q) ==> Upsert(q, x) == q + [x]
    ensures DistinctIds(q) ==> DistinctIds(Upsert(q, x))
    ensures DistinctIds(q) && x.id in IdSet(q) ==>
              && |Upsert(q, x)| == |q|
              && forall i :: 0 <= i < |q| ==> Upsert(q, x)[i] == (if q[i].id == x.id then x else q[i])
    decreases |q|
  {
    if |q| == 0 {
      assert IdSet(q) == {};
      IdSetCons(x, q);
      assert [x] == [x] + q;
    } else if q[0].id == x.id {
      UpsertAtHead(q, x);
    } else {
      UpsertSpec(q[1..], x);
      UpsertPastHead(q, x, Upsert(q[1..], x));
    }
    assert UpsertFacts(q, x, Upsert(q, x));
  }

  /** The id sits at the head: its value is replaced there. */
  lemma UpsertAtHead(q: seq<FeedItem>, x: FeedItem)
    requires |q| > 0 && q[0].id == x.id
    ensures UpsertFacts(q, x, Upsert(q, x))
  {
    var rest := q[1..];
    assert q == [q[0]] + rest;
    IdSetCons(q[0], rest);
    IdSetCons(x, rest);
    if DistinctIds(q) {
      DistinctTail(q);
      DistinctConcat([x], rest);
    }
  }

  /** The head carries another id: it is kept and the tail is updated. */
  lemma {:induction false} UpsertPastHead(q: seq<FeedItem>, x: FeedItem, r': seq<FeedItem>)
    requires |q| > 0 && q[0].id != x.id
    requires r' == Upsert(q[1..], x)
    requires UpsertFacts(q[1..], x, r')
    ensures UpsertFacts(q, x, Upsert(q, x))
  {
    var rest := q[1..];
    var r := Upsert(q, x);
    assert q == [q[0]] + rest;
    assert r == [q[0]] + r';
    IdSetCons(q[0], rest);
    IdSetCons(q[0], r');
    if DistinctIds(q) {
      DistinctTail(q);
      DistinctConcat([q[0]], r');
      if x.id in IdSet(q) {
        assert x.id in IdSet(rest);
        forall i | 0 <= i < |q|
          ensures r[i] == (if q[i].id == x.id then x else q[i])
        {
          if i > 0 {
            assert r[i] == r'[i - 1] && q[i] == rest[i - 1];
          }
        }
      }
    }
  }

  /** Upserting a batch keeps the ids distinct and adds exactly the batch's
      ids. */
  lemma {:induction false} UpsertAllIds(q: seq<FeedItem>, xs: seq<FeedItem>)
    ensures IdSet(UpsertAll(q, xs)) == IdSet(q) + IdSet(xs)
    ensures DistinctIds(q) ==> DistinctIds(UpsertAll(q, xs))
    decreases |xs|
  {
    if |xs| == 0 {
      assert IdSet(xs) == {};
    } else {
      var p := xs[..|xs| - 1];
      var x := xs[|xs| - 1];
      assert xs == p + [x];
      UpsertAllIds(q, p);
      UpsertSpec(UpsertAll(q, p), x);
      IdSetAppend(p, x);
    }
  }

  /** Upserting items whose ids are all new, and distinct, just appends them. */
  lemma {:induction false} UpsertAllOfFresh(q: seq<FeedItem>, xs: seq<FeedItem>)
    requires DistinctIds(q + xs)
    ensures UpsertAll(q, xs) == q + xs
    decreases |xs|
  {
    if |xs| > 0 {
      var p := xs[..|xs| - 1];
      var x := xs[|xs| - 1];
      assert xs == p + [x];
      assert q + xs == (q + p) + [x];
      assert DistinctIds(q + p) by {
        forall i, j | 0 <= i < j < |q + p|
          ensures (q + p)[i].id != (q + p)[j].id
        {
          assert (q + p)[i] == (q + xs)[i] && (q + p)[j] == (q + xs)[j];
        }
      }
      UpsertAllOfFresh(q, p);
      assert x.id !in IdSet(q + p) by {
        forall i | 0 <= i < |q + p|
          ensures (q + p)[i].id != x.id
        {
          assert (q + p)[i] == (q + xs)[i] && x == (q + xs)[|q + xs| - 1];
        }
      }
      UpsertSpec(q + p, x);
    }
  }

  /** What upserting an id-distinct batch into an id-distinct queue yields:
      every old entry stays where it was with its id, and takes the batch's
      value when the batch carries its id; the batch's new ids follow, in
      batch order. */
  predicate MergedFrom(q: seq<FeedItem>, xs: seq<FeedItem>, r: seq<FeedItem>)
  {
    && |r| == |q| + |FirstNew(IdSet(q), xs)|
    && r[|q|..] == FirstNew(IdSet(q), xs)
    && (forall i :: 0 <= i < |q| ==> r[i].id == q[i].id)
    && (forall i :: 0 <= i < |q| && q[i].id in IdSet(xs) ==> r[i] in xs)
    && (forall i :: 0 <= i < |q| && q[i].id !in IdSet(xs) ==> r[i] == q[i])
    && DistinctIds(r)
  }

  lemma {:induction false} UpsertAllSpec(q: seq<FeedItem>, xs: seq<FeedItem>)
    requires DistinctIds(q) && DistinctIds(xs)
    ensures MergedFrom(q, xs, UpsertAll(q, xs))
    decreases |xs|
  {
    var known := IdSet(q);
    if |xs| == 0 {
      assert IdSet(xs) == {};
    } else {
      var p := xs[..|xs| - 1];
      var x := xs[|xs| - 1];
      assert xs == p + [x];
      assert DistinctIds(p) by {
        forall i, j | 0 <= i < j < |p|
          ensures p[i].id != p[j].id
        {
          assert p[i] == xs[i] && p[j] == xs[j];
        }
      }
      assert x.id !in IdSet(p) by {
        forall i | 0 <= i < |p|
          ensures p[i].id != x.id
        {
          assert p[i] == xs[i];
        }
      }
      UpsertAllSpec(q, p);
      UpsertAllIds(q, p);
      IdSetAppend(p, x);
      FirstNewSnoc(known, p, x);
      FirstNewSpec(known, p);
      UpsertStepSpec(q, p, x, UpsertAll(q, p));
    }
  }

  /** The induction step of `UpsertAllSpec`, with the fold kept out of sight. */
  lemma UpsertStepSpec(q: seq<FeedItem>, p: seq<FeedItem>, x: FeedItem, rp: seq<FeedItem>)
    requires DistinctIds(q)
    requires x.id !in IdSet(p)
    requires MergedFrom(q, p, rp)
    requires IdSet(rp) == IdSet(q) + IdSet(p)
    requires IdSet(FirstNew(IdSet(q), p)) == IdSet(p) - IdSet(q)
    requires FirstNew(IdSet(q), p + [x])
          == FirstNew(IdSet(q), p) + (if x.id in IdSet(q) || x.id in IdSet(p) then [] else [x])
    requires IdSet(p + [x]) == IdSet(p) + {x.id}
    ensures MergedFrom(q, p + [x], Upsert(rp, x))
  {
    UpsertSpec(rp, x);
    if x.id in IdSet(q) {
      UpsertStepKnown(q, p, x, rp, Upsert(rp, x));
    } else {
      UpsertStepNew(q, p, x, rp, Upsert(rp, x));
    }
  }

  /** The step when the batch item's id is already queued: its slot among
      the old entries is overwritten in place. */
  lemma UpsertStepKnown(q: seq<FeedItem>, p: seq<FeedItem>, x: FeedItem, rp: seq<FeedItem>, r: seq<FeedItem>)
    requires x.id in IdSet(q)
    requires MergedFrom(q, p, rp)
    requires IdSet(FirstNew(IdSet(q), p)) == IdSet(p) - IdSet(q)
    requires FirstNew(IdSet(q), p + [x]) == FirstNew(IdSet(q), p)
    requires IdSet(p + [x]) == IdSet(p) + {x.id}
    requires |r| == |rp|
    requires forall i :: 0 <= i < |rp| ==> r[i] == (if rp[i].id == x.id then x else rp[i])
    requires DistinctIds(r)
    ensures MergedFrom(q, p + [x], r)
  {
    var known := IdSet(q);
    var xs := p + [x];
    var fp := FirstNew(known, p);
    assert r[|q|..] == rp[|q|..] by {
      forall i | |q| <= i < |rp|
        ensures r[i] == rp[i]
      {
        assert rp[i] == fp[i - |q|];
        assert fp[i - |q|].id in IdSet(fp);
      }
    }
    forall i | 0 <= i < |q| && q[i].id in IdSet(xs)
      ensures r[i] in xs
    {
      if q[i].id != x.id {
        assert q[i].id in IdSet(p);
        assert rp[i] in p;
      }
    }
  }

  /** The step when the batch item's id is new: it is appended. */
  lemma UpsertStepNew(q: seq<FeedItem>, p: seq<FeedItem>, x: FeedItem, rp: seq<FeedItem>, r: seq<FeedItem>)
    requires x.id !in IdSet(q) && x.id !in IdSet(p)
    requires MergedFrom(q, p, rp)
    requires FirstNew(IdSet(q), p + [x]) == FirstNew(IdSet(q), p) + [x]
    requires IdSet(p + [x]) == IdSet(p) + {x.id}
    requires r == rp + [x]
    requires DistinctIds(r)
    ensures MergedFrom(q, p + [x], r)
  {
    var xs := p + [x];
    assert forall i :: 0 <= i < |rp| ==> r[i] == rp[i];
    assert r[|q|..] == rp[|q|..] + [x];
    forall i | 0 <= i < |q| && q[i].id in IdSet(xs)
      ensures r[i] in xs
    {
      assert q[i].id in IdSet(q);
      assert q[i].id in IdSet(p);
      assert rp[i] in p;
    }
    forall i | 0 <= i < |q| && q[i].id !in IdSet(xs)
      ensures r[i] == q[i]
    {
      assert q[i].id !in IdSet(p);
    }
  }

  /** The merge on an id-distinct queue and an id-distinct batch: old
      entries keep their positions and take the batch's values, new ids are
      appended in batch order, and the length grows by the number of new
      ids. */
  lemma MergeSpec(prev: seq<FeedItem>, batch: seq<FeedItem>)
    requires DistinctIds(prev) && DistinctIds(batch)
    ensures MergedFrom(prev, batch, Merge(prev, batch))
    ensures |Merge(prev, batch)| == |prev| + |IdSet(batch) - IdSet(prev)|
  {
    assert [] + prev == prev;
    UpsertAllOfFresh([], prev);
    UpsertAllSpec(prev, batch);
    FirstNewSpec(IdSet(prev), batch);
  }

  /** Setting values that are already there, each under its own id, leaves
      an id-distinct queue as it is. */
  lemma {:induction false} UpsertPresentIsNoOp(r: seq<FeedItem>, xs: seq<FeedItem>)
    requires DistinctIds(r)
    requires forall x :: x in xs ==> x in r
    ensures UpsertAll(r, xs) == r
    decreases |xs|
  {
    if |xs| > 0 {
      var p := xs[..|xs| - 1];
      var x := xs[|xs| - 1];
      assert forall y :: y in p ==> y in xs;
      UpsertPresentIsNoOp(r, p);
      UpsertPresentItem(r, x);
    }
  }

  /** Setting an item that already sits under its own id changes nothing. */
  lemma UpsertPresentItem(r: seq<FeedItem>, x: FeedItem)
    requires DistinctIds(r)
    requires x in r
    ensures Upsert(r, x) == r
  {
    var k :| 0 <= k < |r| && r[k] == x;
    assert x.id in IdSet(r);
    UpsertSpec(r, x);
    var r' := Upsert(r, x);
    forall i | 0 <= i < |r|
      ensures r'[i] == r[i]
    {
      if r[i].id == x.id {
        assert r[k].id == r[i].id;
      }
    }
  }

  /** After a merge, every item of an id-distinct batch sits in the queue. */
  lemma BatchPresentAfterUpsert(q: seq<FeedItem>, xs: seq<FeedItem>, r: seq<FeedItem>)
    requires DistinctIds(xs)
    requires MergedFrom(q, xs, r)
    ensures forall x :: x in xs ==> x in r
  {
    var known := IdSet(q);
    var f := FirstNew(known, xs);
    FirstNewSpec(known, xs);
    forall x | x in xs
      ensures x in r
    {
      if x.id in known {
        var i :| 0 <= i < |q| && q[i].id == x.id;
        assert x.id in IdSet(xs);
        assert r[i] in xs;
        DistinctIdDeterminesItem(xs, r[i], x);
      } else {
        assert x.id in IdSet(f);
        var j :| 0 <= j < |f| && f[j].id == x.id;
        DistinctIdDeterminesItem(xs, f[j], x);
        assert r[|q| + j] == f[j];
      }
    }
  }

  /** Merging the same id-distinct batch a second time changes nothing. */
  lemma MergeIdempotent(prev: seq<FeedItem>, batch: seq<FeedItem>)
    requires DistinctIds(batch)
    ensures Merge(Merge(prev, batch), batch) == Merge(prev, batch)
  {
    var q := UpsertAll([], prev);
    UpsertAllIds([], prev);
    var r := UpsertAll(q, batch);
    UpsertAllSpec(q, batch);
    // the map rebuilt from `r` is `r` itself
    assert [] + r == r;
    UpsertAllOfFresh([], r);
    BatchPresentAfterUpsert(q, batch, r);
    UpsertPresentIsNoOp(r, batch);
  }

  /** A batch of ids new to an id-distinct queue is simply appended. */
  lemma MergeOfFresh(prev: seq<FeedItem>, batch: seq<FeedItem>)
    requires DistinctIds(prev) && DistinctIds(batch) && IdSet(prev) !! IdSet(batch)
    ensures Merge(prev, batch) == prev + batch
  {
    assert [] + prev == prev;
    UpsertAllOfFresh([], prev);
    DistinctConcat(prev, batch);
    UpsertAllOfFresh(prev, batch);
  }
}

=== FILE: feed.dfy ===
/** Feed items and the id-level vocabulary shared by the server catalog and
    the client queue: id sets, id-distinctness, and the first-come filter
    that both the admin push and the demo generator apply to a batch. */
module Feed {

  datatype Option<+T> = None | Some(value: T)

  datatype Result<+R, +E> = Success(value: R) | Failure(error: E)

  /** One short. Identity is `id`; the server's built-in items carry no
      channel, while pushed and generated items may. */
  datatype FeedItem = FeedItem(
    id: string,
    url: string,
    title: string,
    thumbnail: string,
    channel: Option<string>)

  /** The ids occurring in a sequence of items. */
  function IdSet(xs: seq<FeedItem>): set<string>
  {
    set i | 0 <= i < |xs| :: xs[i].id
  }

  /** No id occurs twice. */
  predicate DistinctIds(xs: seq<FeedItem>)
  {
    forall i, j :: 0 <= i < j < |xs| ==> xs[i].id != xs[j].id
  }

  /** The items of `xs` admitted on a first-come basis against `known`:
      the last item is admitted exactly when its id is neither known
      beforehand nor carried by any earlier item of the batch. */
  function FirstNew(known: set<string>, xs: seq<FeedItem>): seq<FeedItem>
    decreases |xs|
  {
    if |xs| == 0 then []
    else
      var p := xs[..|xs| - 1];
      var x := xs[|xs| - 1];
      FirstNew(known, p) + (if x.id in known || x.id in IdSet(p) then [] else [x])
  }

  function Reverse<T>(xs: seq<T>): (r: seq<T>)
    ensures |r| == |xs|
    ensures forall i :: 0 <= i < |xs| ==> r[i] == xs[|xs| - 1 - i]
  {
    if |xs| == 0 then [] else Reverse(xs[1..]) + [xs[0]]
  }

  lemma ReverseSnoc<T>(xs: seq<T>, x: T)
    ensures Reverse(xs + [x]) == [x] + Reverse(xs)
  {
    var r := Reverse(xs + [x]);
    assert r[0] == x;
    assert r[1..] == Reverse(xs);
  }

  lemma IdSetAppend(p: seq<FeedItem>, x: FeedItem)
    ensures IdSet(p + [x]) == IdSet(p) + {x.id}
  {
    var q := p + [x];
    forall id | id in IdSet(p)
      ensures id in IdSet(q)
    {
      var i :| 0 <= i < |p| && p[i].id == id;
      assert q[i].id == id;
    }
    assert q[|p|].id == x.id;
  }

  lemma IdSetConcat(a: seq<FeedItem>, b: seq<FeedItem>)
    ensures IdSet(a + b) == IdSet(a) + IdSet(b)
  {
    var q := a + b;
    forall id | id in IdSet(a)
      ensures id in IdSet(q)
    {
      var i :| 0 <= i < |a| && a[i].id == id;
      assert q[i].id == id;
    }
    forall id | id in IdSet(b)
      ensures id in IdSet(q)
    {
      var i :| 0 <= i < |b| && b[i].id == id;
      assert q[|a| + i].id == id;
    }
    forall id | id in IdSet(q)
      ensures id in IdSet(a) + IdSet(b)
    {
      var i :| 0 <= i < |q| && q[i].id == id;
      if i < |a| {
        assert a[i].id == id;
      } else {
        assert b[i - |a|].id == id;
      }
    }
  }

  lemma IdSetReverse(xs: seq<FeedItem>)
    ensures IdSet(Reverse(xs)) == IdSet(xs)
  {
    var r := Reverse(xs);
    forall id | id in IdSet(xs)
      ensures id in IdSet(r)
    {
      var i :| 0 <= i < |xs| && xs[i].id == id;
      assert r[|xs| - 1 - i].id == id;
    }
    forall id | id in IdSet(r)
      ensures id in IdSet(xs)
    {
      var i :| 0 <= i < |r| && r[i].id == id;
      assert xs[|xs| - 1 - i].id == id;
    }
  }

  lemma DistinctReverse(xs: seq<FeedItem>)
    requires DistinctIds(xs)
    ensures DistinctIds(Reverse(xs))
  {
    var r := Reverse(xs);
    forall i, j | 0 <= i < j < |r|
      ensures r[i].id != r[j].id
    {
      assert r[i] == xs[|xs| - 1 - i] && r[j] == xs[|xs| - 1 - j];
    }
  }

  /** Two id-distinct sequences with disjoint id sets concatenate to an
      id-distinct sequence. */
  lemma DistinctConcat(a: seq<FeedItem>, b: seq<FeedItem>)
    requires DistinctIds(a) && DistinctIds(b) && IdSet(a) !! IdSet(b)
    ensures DistinctIds(a + b)
  {
    var q := a + b;
    forall i, j | 0 <= i < j < |q|
      ensures q[i].id != q[j].id
    {
      if j < |a| {
        assert q[i] == a[i] && q[j] == a[j];
      } else if i >= |a| {
        assert q[i] == b[i - |a|] && q[j] == b[j - |a|];
      } else {
        assert q[i].id in IdSet(a) by { assert a[i] == q[i]; }
        assert q[j].id in IdSet(b) by { assert b[j - |a|] == q[j]; }
      }
    }
  }

  /** In an id-distinct sequence, the id determines the item. */
  lemma DistinctIdDeterminesItem(xs: seq<FeedItem>, a: FeedItem, b: FeedItem)
    requires DistinctIds(xs) && a in xs && b in xs && a.id == b.id
    ensures a == b
  {
    var i :| 0 <= i < |xs| && xs[i] == a;
    var j :| 0 <= j < |xs| && xs[j] == b;
    assert xs[i].id == xs[j].id;
  }

  /** An id-distinct sequence has as many ids as items. */
  lemma {:induction false} DistinctCard(xs: seq<FeedItem>)
    requires DistinctIds(xs)
    ensures |IdSet(xs)| == |xs|
    decreases |xs|
  {
    if |xs| > 0 {
      var p := xs[..|xs| - 1];
      var x := xs[|xs| - 1];
      assert xs == p + [x];
      assert DistinctIds(p) by {
        forall i, j | 0 <= i < j < |p|
          ensures p[i].id != p[j].id
        {
          assert p[i] == xs[i] && p[j] == xs[j];
        }
      }
      DistinctCard(p);
      IdSetAppend(p, x);
      assert x.id !in IdSet(p) by {
        forall i | 0 <= i < |p|
          ensures p[i].id != x.id
        {
          assert p[i] == xs[i];
        }
      }
    }
  }

  lemma FirstNewSnoc(known: set<string>, p: seq<FeedItem>, x: FeedItem)
    ensures FirstNew(known, p + [x])
         == FirstNew(known, p) + (if x.id in known || x.id in IdSet(p) then [] else [x])
  {
    var xs := p + [x];
    assert xs[..|xs| - 1] == p;
    assert xs[|xs| - 1] == x;
  }

  /** What the first-come filter admits: exactly the ids of the batch that were
      not known, each once, and only items taken from the batch. */
  lemma {:induction false} FirstNewSpec(known: set<string>, xs: seq<FeedItem>)
    ensures IdSet(FirstNew(known, xs)) == IdSet(xs) - known
    ensures DistinctIds(FirstNew(known, xs))
    ensures |FirstNew(known, xs)| == |IdSet(xs) - known|
    ensures forall y :: y in FirstNew(known, xs) ==> y in xs
    decreases |xs|
  {
    var f := FirstNew(known, xs);
    if |xs| == 0 {
      assert IdSet(xs) == {};
    } else {
      var p := xs[..|xs| - 1];
      var x := xs[|xs| - 1];
      assert xs == p + [x];
      FirstNewSpec(known, p);
      var fp := FirstNew(known, p);
      IdSetAppend(p, x);
      if x.id in known || x.id in IdSet(p) {
        assert f == fp;
      } else {
        assert f == fp + [x];
        IdSetAppend(fp, x);
        DistinctConcat(fp, [x]);
      }
      DistinctCard(f);
      forall y | y in f
        ensures y in xs
      {
        if y in fp {
          assert y in p;
        }
      }
    }
  }

  /** A batch whose ids are all known admits nothing. */
  lemma FirstNewOfKnown(known: set<string>, xs: seq<FeedItem>)
    requires IdSet(xs) <= known
    ensures FirstNew(known, xs) == []
  {
    FirstNewSpec(known, xs);
  }

  /** An id-distinct batch of entirely unknown ids is admitted whole. */
  lemma {:induction false} FirstNewOfFresh(known: set<string>, xs: seq<FeedItem>)
    requires DistinctIds(xs) && IdSet(xs) !! known
    ensures FirstNew(known, xs) == xs
    decreases |xs|
  {
    if |xs| > 0 {
      var p := xs[..|xs| - 1];
      var x := xs[|xs| - 1];
      assert xs == p + [x];
      IdSetAppend(p, x);
      assert DistinctIds(p) by {
        forall i, j | 0 <= i < j < |p|
          ensures p[i].id != p[j].id
        {
          assert p[i] == xs[i] && p[j] == xs[j];
        }
      }
      FirstNewOfFresh(known, p);
      assert x.id !in IdSet(p) by {
        forall i | 0 <= i < |p|
          ensures p[i].id != x.id
        {
          assert p[i] == xs[i];
        }
      }
    }
  }
}

=== FILE: player.dfy ===
/** The player's client-side state and its transitions: demo item
    generation against the local seen-id set, the guarded refill that merges
    and caps the queue, the cursor moves, the low-water refill trigger and
    the title shown under each upcoming thumbnail.

    Randomness and the clock are inputs: each attempt of the generator
    consumes one `Draw`, the video id it picked and the salt it appended. */
module Player {
  import opened Feed
  import opened ClientQueue

  /** One attempt of the generator: a video id and the salt (base-36
      timestamp, underscore, random number) that follows it in the item id. */
  datatype Draw = Draw(vid: string, salt: string)

  /** Queue, cursor, the ids already used on this client, and the
      in-flight guard of the refill. */
  datatype ClientState = ClientState(
    queue: seq<FeedItem>,
    cursor: int,
    seenIds: set<string>,
    loading: bool)

  /** Batch size the refill trigger and `GoNext` ask for. */
  const RefillCount: int := 8

  /** Queue lengths below this always ask for a refill. */
  const MinQueue: int := 6

  /** A refill is asked for once this many items or fewer remain from the
      cursor on. */
  const LowWater: int := 4

  /** Titles longer than this are shortened for display. */
  const TitleLimit: nat := 24

  const Ellipsis: char := '\U{2026}'

  function ThumbFromVidId(vid: string): string
  {
    "https://i.ytimg.com/vi/" + vid + "/hqdefault.jpg"
  }

  function EmbedUrl(vid: string): string
  {
    "https://www.youtube.com/embed/" + vid
  }

  function DemoId(d: Draw): string
  {
    "gen_" + d.vid + "_" + d.salt
  }

  /** The item the generator builds from one accepted draw. */
  function DemoItem(d: Draw): FeedItem
  {
    FeedItem(DemoId(d), EmbedUrl(d.vid), "Auto Short \U{2022} " + d.vid,
             ThumbFromVidId(d.vid), Some("AutoGen"))
  }

  function DemoItems(ds: seq<Draw>): (r: seq<FeedItem>)
    ensures |r| == |ds|
    ensures forall i :: 0 <= i < |ds| ==> r[i] == DemoItem(ds[i])
  {
    seq(|ds|, i requires 0 <= i < |ds| => DemoItem(ds[i]))
  }

  /** Different video ids give different thumbnails, so a thumbnail names
      the video it was built from. */
  lemma ThumbFromVidIdInjective(a: string, b: string)
    requires ThumbFromVidId(a) == ThumbFromVidId(b)
    ensures a == b
  {
    var pre := "https://i.ytimg.com/vi/";
    var ta := ThumbFromVidId(a);
    var tb := ThumbFromVidId(b);
    assert |a| == |b|;
    assert ta[|pre|..|pre| + |a|] == a;
    assert tb[|pre|..|pre| + |b|] == b;
  }

  /** The generated item's fields all name the video of its draw, and its id
      starts with `gen_<vid>_`. */
  lemma DemoItemShape(d: Draw)
    ensures var item := DemoItem(d);
            var pre := "gen_" + d.vid + "_";
            && |pre| <= |item.id| && item.id[..|pre|] == pre
            && item.url == "https://www.youtube.com/embed/" + d.vid
            && item.thumbnail == "https://i.ytimg.com/vi/" + d.vid + "/hqdefault.jpg"
            && item.title == "Auto Short \U{2022} " + d.vid
            && item.channel == Some("AutoGen")
  {
    var pre := "gen_" + d.vid + "_";
    assert DemoId(d) == pre + d.salt;
  }

  /** The generation loop: up to `count` items within at most `6 * count`
      attempts, skipping any attempt whose id this client has already used
      and recording every id it does use. */
  method GenerateDemoItems(seen: set<string>, count: int, draws: seq<Draw>)
    returns (items: seq<FeedItem>, seen': set<string>, tries: nat)
    requires 6 * count <= |draws|
    ensures tries <= |draws|
    ensures items == FirstNew(seen, DemoItems(draws[..tries]))
    ensures IdSet(items) !! seen && DistinctIds(items)
    ensures seen' == seen + IdSet(items)
    ensures count <= 0 ==> items == [] && tries == 0
    ensures count > 0 ==> |items| <= count && tries <= 6 * count
    ensures count > 0 ==> |items| == count || tries == 6 * count
  {
    items := [];
    seen' := seen;
    tries := 0;
    while |items| < count && tries < count * 6
      invariant tries <= |draws|
      invariant count > 0 ==> tries <= 6 * count && |items| <= count
      invariant count <= 0 ==> tries == 0 && items == []
      invariant items == FirstNew(seen, DemoItems(draws[..tries]))
      invariant seen' == seen + IdSet(items)
      decreases 6 * count - tries
    {
      var d := draws[tries];
      DemoItemsSnoc(draws, tries);
      GenerateStep(seen, DemoItems(draws[..tries]), DemoItem(d), items, seen');
      tries := tries + 1;
      var id := DemoId(d);
      if id !in seen' {
        seen' := seen' + {id};
        items := items + [DemoItem(d)];
      }
    }
    FirstNewSpec(seen, DemoItems(draws[..tries]));
  }

  lemma DemoItemsSnoc(draws: seq<Draw>, t: nat)
    requires t < |draws|
    ensures DemoItems(draws[..t + 1]) == DemoItems(draws[..t]) + [DemoItem(draws[t])]
  {
    assert draws[..t + 1] == draws[..t] + [draws[t]];
  }

  /** The used ids after filtering are the earlier ones plus the attempted
      ones. */
  lemma UsedAfterFilter(seen: set<string>, attempted: set<string>, seen': set<string>, id: string)
    requires seen' == seen + (attempted - seen)
    ensures id in seen' <==> id in seen || id in attempted
  {
  }

  /** One attempt of the generation loop: testing the attempt's id against
      the used ids is the first-come filter's step. */
  lemma GenerateStep(seen: set<string>, done: seq<FeedItem>, x: FeedItem,
                     items: seq<FeedItem>, seen': set<string>)
    requires items == FirstNew(seen, done)
    requires seen' == seen + IdSet(items)
    ensures FirstNew(seen, done + [x]) == if x.id in seen' then items else items + [x]
    ensures seen' + {x.id} == seen + IdSet(items + [x])
  {
    FirstNewSnoc(seen, done, x);
    assert IdSet(items) == IdSet(done) - seen by {
      FirstNewSpec(seen, done);
    }
    AttemptAgainstUsed(seen, IdSet(done), items, seen', x, FirstNew(seen, done + [x]));
  }

  /** The loop's test of an attempt against the used ids decides what the
      first-come filter decides. */
  lemma AttemptAgainstUsed(seen: set<string>, attempted: set<string>, items: seq<FeedItem>,
                           seen': set<string>, x: FeedItem, next: seq<FeedItem>)
    requires next == items + (if x.id in seen || x.id in attempted then [] else [x])
    requires IdSet(items) == attempted - seen
    requires seen' == seen + IdSet(items)
    ensures next == if x.id in seen' then items else items + [x]
    ensures seen' + {x.id} == seen + IdSet(items + [x])
  {
    UsedAfterFilter(seen, attempted, seen', x.id);
    if x.id in seen' {
      assert next == items + [];
    }
    IdSetAppend(items, x);
  }

  /** Client invariant: the queue holds distinct ids, all of them already
      used on this client, at most `MaxBuffer` of them, and the cursor points
      into it. */
  predicate WellFormed(s: ClientState)
  {
    && DistinctIds(s.queue)
    && |s.queue| <= MaxBuffer
    && IdSet(s.queue) <= s.seenIds
    && 0 <= s.cursor < |s.queue|
  }

  /** The four items the player starts with. */
  const InitialQueue: seq<FeedItem> := [
    FeedItem("init1", "https://www.youtube.com/embed/PhVQWwjZn54", "Funny Cat",
             "https://i.ytimg.com/vi/PhVQWwjZn54/hqdefault.jpg", Some("CatChannel")),
    FeedItem("init2", "https://www.youtube.com/embed/WXeFtVV78dg", "Dance Move",
             "https://i.ytimg.com/vi/WXeFtVV78dg/hqdefault.jpg", Some("DanceZone")),
    FeedItem("init3", "https://www.youtube.com/embed/JvDf7htxvrA", "Comedy Clip",
             "https://i.ytimg.com/vi/JvDf7htxvrA/hqdefault.jpg", Some("Laughs")),
    FeedItem("init4", "https://www.youtube.com/embed/EU3EMbE4iro", "Short Skit",
             "https://i.ytimg.com/vi/EU3EMbE4iro/hqdefault.jpg", Some("Skits"))
  ]

  /** The state on mount: the initial items, cursor at the first, their ids
      recorded as used, no refill in flight. */
  function InitialState(): (s: ClientState)
    ensures s.queue == InitialQueue && s.seenIds == IdSet(InitialQueue)
    ensures WellFormed(s) && !s.loading && s.cursor == 0
  {
    var s := ClientState(InitialQueue, 0, IdSet(InitialQueue), false);
    assert InitialQueue[0].id == "init1" && InitialQueue[1].id == "init2";
    assert InitialQueue[2].id == "init3" && InitialQueue[3].id == "init4";
    s
  }

  /** `batch` is what the generation loop yields against the used ids
      `seen` when asked for `count` items, after `tries` attempts over
      `draws`: the first-come new items of those attempts, stopping at
      `count` items or at `6 * count` attempts. */
  predicate Generated(seen: set<string>, count: int, draws: seq<Draw>, batch: seq<FeedItem>, tries: nat)
  {
    && tries <= |draws|
    && batch == FirstNew(seen, DemoItems(draws[..tries]))
    && (count <= 0 ==> tries == 0)
    && (count > 0 ==> tries <= 6 * count && |batch| <= count && (|batch| == count || tries == 6 * count))
  }

  /** One refill: a no-op while another is in flight; otherwise generate a
      batch of fresh items, merge it into the queue by id, cap the queue,
      and clear the guard. The cursor is never adjusted. */
  method FetchMoreDemo(s: ClientState, count: int, draws: seq<Draw>)
    returns (r: ClientState, batch: seq<FeedItem>, tries: nat)
    requires 6 * count <= |draws|
    ensures s.loading ==> r == s && batch == [] && tries == 0
    ensures !s.loading ==> Generated(s.seenIds, count, draws, batch, tries)
    ensures !s.loading ==> !r.loading && r.cursor == s.cursor
    ensures !s.loading ==> IdSet(batch) !! s.seenIds && DistinctIds(batch)
    ensures !s.loading ==> r.seenIds == s.seenIds + IdSet(batch)
    ensures !s.loading ==> r.queue == Cap(Merge(s.queue, batch))
    ensures count <= 0 ==> batch == []
    ensures count > 0 ==> |batch| <= count
    ensures forall x :: x in batch ==> exists j :: 0 <= j < |draws| && x == DemoItem(draws[j])
    ensures WellFormed(s) ==> WellFormed(r)
    ensures WellFormed(s) && !s.loading ==> r.queue == Cap(s.queue + batch)
  {
    if s.loading {
      return s, [], 0;
    }
    var seen';
    batch, seen', tries := GenerateDemoItems(s.seenIds, count, draws);
    BatchFromDraws(s.seenIds, draws, tries);
    r := ClientState(Cap(Merge(s.queue, batch)), s.cursor, seen', false);
    if WellFormed(s) {
      RefillKeepsWellFormed(s, batch);
    }
  }

  /** Every generated item was built from one of the draws. */
  lemma BatchFromDraws(seen: set<string>, draws: seq<Draw>, tries: nat)
    requires tries <= |draws|
    ensures forall x :: x in FirstNew(seen, DemoItems(draws[..tries])) ==>
              exists j :: 0 <= j < |draws| && x == DemoItem(draws[j])
  {
    FirstNewSpec(seen, DemoItems(draws[..tries]));
    forall x | x in FirstNew(seen, DemoItems(draws[..tries]))
      ensures exists j :: 0 <= j < |draws| && x == DemoItem(draws[j])
    {
      var k :| 0 <= k < tries && DemoItems(draws[..tries])[k] == x;
      assert x == DemoItem(draws[k]);
    }
  }

  /** A refill on a well-formed client appends the whole batch, because every
      generated id is new to the client and hence to the queue, and the
      capped result is well-formed again with the cursor left where it was. */
  lemma RefillKeepsWellFormed(s: ClientState, batch: seq<FeedItem>)
    requires WellFormed(s)
    requires IdSet(batch) !! s.seenIds && DistinctIds(batch)
    ensures Merge(s.queue, batch) == s.queue + batch
    ensures WellFormed(ClientState(Cap(Merge(s.queue, batch)), s.cursor, s.seenIds + IdSet(batch), false))
  {
    assert IdSet(s.queue) !! IdSet(batch);
    MergeOfFresh(s.queue, batch);
    DistinctConcat(s.queue, batch);
    IdSetConcat(s.queue, batch);
    var merged := s.queue + batch;
    IdSetSuffix(merged, |merged| - |Cap(merged)|);
  }

  lemma IdSetSuffix(q: seq<FeedItem>, k: nat)
    requires k <= |q|
    ensures IdSet(q[k..]) <= IdSet(q)
  {
    forall id | id in IdSet(q[k..])
      ensures id in IdSet(q)
    {
      var i :| 0 <= i < |q[k..]| && q[k..][i].id == id;
      assert q[k + i].id == id;
    }
  }

  /** Where `GoNext` leaves the cursor, and whether it asks for a refill. */
  datatype CursorMove = CursorMove(index: int, refill: bool)

  function NextMove(cursor: int, queueLength: int): CursorMove
  {
    var next := cursor + 1;
    if next >= queueLength then CursorMove(cursor, true) else CursorMove(next, false)
  }

  /** Next: advance by one when there is a next item; at the end, stay and
      run a refill instead. */
  method GoNext(s: ClientState, draws: seq<Draw>)
    returns (r: ClientState, refilled: bool, batch: seq<FeedItem>, tries: nat)
    requires 6 * RefillCount <= |draws|
    ensures refilled <==> s.cursor + 1 >= |s.queue|
    ensures !refilled ==> r == s.(cursor := s.cursor + 1) && batch == []
    ensures refilled && s.loading ==> r == s && batch == []
    ensures refilled && !s.loading ==>
              && Generated(s.seenIds, RefillCount, draws, batch, tries)
              && IdSet(batch) !! s.seenIds
              && r == ClientState(Cap(Merge(s.queue, batch)), s.cursor, s.seenIds + IdSet(batch), false)
    ensures refilled ==> r.cursor == s.cursor && s.seenIds <= r.seenIds
    ensures WellFormed(s) ==> WellFormed(r)
  {
    var m := NextMove(s.cursor, |s.queue|);
    refilled := m.refill;
    if m.refill {
      r, batch, tries := FetchMoreDemo(s, RefillCount, draws);
    } else {
      r, batch, tries := s, [], 0;
    }
    r := r.(cursor := m.index);
  }

  /** Previous: step back by one, never below the first item. */
  function GoPrev(s: ClientState): (r: ClientState)
    ensures r.cursor >= 0
    ensures s.cursor >= 1 ==> r.cursor == s.cursor - 1
    ensures s.cursor <= 1 ==> r.cursor == 0
    ensures r.queue == s.queue && r.seenIds == s.seenIds && r.loading == s.loading
    ensures WellFormed(s) ==> WellFormed(r)
  {
    s.(cursor := if s.cursor - 1 > 0 then s.cursor - 1 else 0)
  }

  /** The refill effect that runs when the cursor changes: one refill when
      the queue is short, and another when few items remain from the
      cursor on. Both tests read the queue as it was before either refill.
      `b1` and `b2` are the batches the two refills generated, empty for a
      refill that did not run. */
  method RefillEffect(s: ClientState, first: seq<Draw>, second: seq<Draw>)
    returns (r: ClientState, refills: nat, b1: seq<FeedItem>, t1: nat, b2: seq<FeedItem>, t2: nat)
    requires 6 * RefillCount <= |first| && 6 * RefillCount <= |second|
    ensures refills > 0 <==> |s.queue| < MinQueue || |s.queue| - s.cursor <= LowWater
    ensures refills == 2 <==> |s.queue| < MinQueue && |s.queue| - s.cursor <= LowWater
    ensures refills == 0 ==> r == s
    ensures s.loading ==> r == s && b1 == [] && b2 == []
    ensures |s.queue| >= MinQueue ==> b1 == [] && t1 == 0
    ensures |s.queue| - s.cursor > LowWater ==> b2 == [] && t2 == 0
    ensures !s.loading && |s.queue| < MinQueue ==> Generated(s.seenIds, RefillCount, first, b1, t1)
    ensures !s.loading && |s.queue| - s.cursor <= LowWater ==>
              Generated(s.seenIds + IdSet(b1), RefillCount, second, b2, t2)
    ensures !s.loading ==> !r.loading && r.seenIds == s.seenIds + IdSet(b1) + IdSet(b2)
    ensures WellFormed(s) && !s.loading ==> r.queue == Cap(Cap(s.queue + b1) + b2)
    ensures r.cursor == s.cursor && s.seenIds <= r.seenIds
    ensures WellFormed(s) ==> WellFormed(r)
  {
    var queueLength := |s.queue|;
    refills := 0;
    var mid;
    mid, b1, t1 := RefillIf(s, queueLength < MinQueue, first);
    if queueLength < MinQueue {
      refills := refills + 1;
    }
    r, b2, t2 := RefillIf(mid, queueLength - s.cursor <= LowWater, second);
    if queueLength - s.cursor <= LowWater {
      refills := refills + 1;
    }
  }

  /** One guarded refill of the effect: when `run` holds, a refill of
      `RefillCount` items; otherwise nothing happens and the batch is empty. */
  method RefillIf(s: ClientState, run: bool, draws: seq<Draw>)
    returns (r: ClientState, batch: seq<FeedItem>, tries: nat)
    requires 6 * RefillCount <= |draws|
    ensures !run || s.loading ==> r == s && batch == [] && tries == 0
    ensures run && !s.loading ==> Generated(s.seenIds, RefillCount, draws, batch, tries)
    ensures !s.loading ==> !r.loading && r.seenIds == s.seenIds + IdSet(batch)
    ensures WellFormed(s) && !s.loading ==> r.queue == Cap(s.queue + batch)
    ensures r.cursor == s.cursor
    ensures WellFormed(s) ==> WellFormed(r)
  {
    if run {
      r, batch, tries := FetchMoreDemo(s, RefillCount, draws);
    } else {
      r, batch, tries := s, [], 0;
      assert IdSet(batch) == {};
      assert s.queue + batch == s.queue;
    }
  }

  /** The title under an upcoming thumbnail: a title over the limit is cut
      to its first 22 characters followed by an ellipsis. */
  function DisplayTitle(t: string): (r: string)
    ensures |r| <= TitleLimit
    ensures |t| <= TitleLimit ==> r == t
    ensures |t| > TitleLimit ==> |r| == 23 && r[..22] == t[..22] && r[22] == Ellipsis
  {
    if |t| > TitleLimit then t[..22] + [Ellipsis] else t
  }

  /** A displayed title displays as itself. */
  lemma DisplayTitleIdempotent(t: string)
    ensures DisplayTitle(DisplayTitle(t)) == DisplayTitle(t)
  {
  }
}

=== FILE: seen_store.dfy ===
/** Per-user seen sets, as the key-value store keeps them under
    `seen:<user>`: a set of item ids and the expiry last set on it. A user
    with no entry has an empty seen set. */
module SeenStore {
  import opened Feed

  /** Expiry, in seconds, set on a seen set at every mark (60 days). */
  const RetentionSeconds: nat := 60 * 24 * 60 * 60

  datatype SeenRecord = SeenRecord(ids: set<string>, ttlSeconds: nat)

  type Store = map<string, SeenRecord>

  datatype SeenError = IdRequired

  /** The seen set of `user`; a missing key reads as the empty set. */
  function SeenIds(store: Store, user: string): set<string>
  {
    if user in store then store[user].ids else {}
  }

  /** The request's `id` field passes the guard: it is present and not the
      empty string. */
  predicate Truthy(id: Option<string>)
  {
    id.Some? && id.value != ""
  }

  /** Mark-seen: reject a missing or empty id; otherwise add the id to the
      user's seen set (whether or not any catalog item carries it) and reset
      that set's expiry to the retention window. Other users are untouched. */
  function MarkSeen(store: Store, user: string, id: Option<string>): (r: Result<Store, SeenError>)
    ensures r.Failure? <==> !Truthy(id)
    ensures r.Failure? ==> r.error == IdRequired
    ensures r.Success? ==> SeenIds(r.value, user) == SeenIds(store, user) + {id.value}
    ensures r.Success? ==> user in r.value && r.value[user].ttlSeconds == RetentionSeconds
    ensures r.Success? ==> forall u :: u != user ==> (u in r.value <==> u in store)
    ensures r.Success? ==> forall u :: u != user && u in store ==> r.value[u] == store[u]
  {
    if !Truthy(id) then Failure(IdRequired)
    else Success(store[user := SeenRecord(SeenIds(store, user) + {id.value}, RetentionSeconds)])
  }

  /** Marking the same id twice gives the same store as marking it once. */
  lemma MarkSeenIdempotent(store: Store, user: string, id: Option<string>)
    requires Truthy(id)
    ensures MarkSeen(store, user, id).Success?
    ensures MarkSeen(MarkSeen(store, user, id).value, user, id) == MarkSeen(store, user, id)
  {
    var s1 := MarkSeen(store, user, id).value;
    assert SeenIds(s1, user) + {id.value} == SeenIds(s1, user);
    assert s1[user := SeenRecord(SeenIds(s1, user), RetentionSeconds)] == s1;
  }

  /** Two marks commute: the final store does not depend on their order. */
  lemma MarkSeenCommutes(store: Store, u1: string, id1: Option<string>, u2: string, id2: Option<string>)
    requires Truthy(id1) && Truthy(id2)
    ensures var a := MarkSeen(MarkSeen(store, u1, id1).value, u2, id2);
            var b := MarkSeen(MarkSeen(store, u2, id2).value, u1, id1);
            a.Success? && b.Success? && a.value == b.value
  {
    var a := MarkSeen(MarkSeen(store, u1, id1).value, u2, id2).value;
    var b := MarkSeen(MarkSeen(store, u2, id2).value, u1, id1).value;
    if u1 == u2 {
      assert SeenIds(store, u1) + {id1.value} + {id2.value} == SeenIds(store, u1) + {id2.value} + {id1.value};
    }
    assert a.Keys == b.Keys;
    forall u | u in a
      ensures a[u] == b[u]
    {
    }
  }
}

=== FILE: server.dfy ===
/** The server as a state machine over its catalog and seen store. Each
    request handler of the demo server becomes one case of `Handle`; the
    connected sessions of an admin push are passed in as their user ids. */
module Server {
  import opened Feed
  import opened Catalog
  import opened SeenStore

  /** Batch size of the initial push to an identifying session and of the
      fan-out after an admin push. */
  const SessionBatch: int := 6

  datatype ServerState = ServerState(catalog: seq<FeedItem>, seen: Store)

  /** The catalog the server starts with. */
  const InitialCatalog: seq<FeedItem> := [
    FeedItem("vid1", "https://www.youtube.com/embed/PhVQWwjZn54", "A",
             "https://i.ytimg.com/vi/PhVQWwjZn54/hqdefault.jpg", None),
    FeedItem("vid2", "https://www.youtube.com/embed/WXeFtVV78dg", "B",
             "https://i.ytimg.com/vi/WXeFtVV78dg/hqdefault.jpg", None)
  ]

  const InitialState: ServerState := ServerState(InitialCatalog, map[])

  datatype Request =
    | NextShorts(user: string, count: int)
    | MarkSeenRequest(user: string, id: Option<string>)
    | Identify(user: string)
    | AdminPush(items: seq<FeedItem>, sessions: seq<string>)

  /** One `batch` event sent to one connected session. */
  datatype Delivery = Delivery(user: string, items: seq<FeedItem>)

  datatype Response =
    | Items(items: seq<FeedItem>)
    | Ack
    | Rejected(error: SeenError)
    | Pushed(pushed: nat, deliveries: seq<Delivery>)

  datatype Outcome = Outcome(state: ServerState, response: Response)

  function UnseenFor(s: ServerState, user: string, limit: int): seq<FeedItem>
  {
    GetUnseenForUser(s.catalog, SeenIds(s.seen, user), limit)
  }

  /** The fan-out after a push: every session gets its own next unseen
      batch, computed against the given state. */
  function FanOut(s: ServerState, sessions: seq<string>): (ds: seq<Delivery>)
    ensures |ds| == |sessions|
    ensures forall i :: 0 <= i < |ds| ==>
              && ds[i].user == sessions[i]
              && |ds[i].items| <= SessionBatch
              && ds[i].items == Take(Unseen(s.catalog, SeenIds(s.seen, sessions[i])), SessionBatch)
  {
    seq(|sessions|, i requires 0 <= i < |sessions| =>
      Delivery(sessions[i], UnseenFor(s, sessions[i], SessionBatch)))
  }

  function Handle(s: ServerState, req: Request): (o: Outcome)
    // the two queries are read-only
    ensures (req.NextShorts? || req.Identify?) ==> o.state == s
    ensures req.NextShorts? ==>
              o.response == Items(Take(Unseen(s.catalog, SeenIds(s.seen, req.user)), BatchSize(req.count)))
    ensures req.Identify? ==>
              o.response == Items(Take(Unseen(s.catalog, SeenIds(s.seen, req.user)), SessionBatch))
    // mark-seen: rejected without any change, or accepted for any id
    ensures req.MarkSeenRequest? && !Truthy(req.id) ==> o == Outcome(s, Rejected(IdRequired))
    ensures req.MarkSeenRequest? && Truthy(req.id) ==>
              && o.response == Ack
              && o.state.catalog == s.catalog
              && SeenIds(o.state.seen, req.user) == SeenIds(s.seen, req.user) + {req.id.value}
              && forall u :: u != req.user ==> SeenIds(o.state.seen, u) == SeenIds(s.seen, u)
    // admin push: the reported count is the raw batch length
    ensures req.AdminPush? ==>
              && o.response.Pushed?
              && o.response.pushed == |req.items|
              && o.state.seen == s.seen
              && o.state.catalog == Reverse(FirstNew(IdSet(s.catalog), req.items)) + s.catalog
              && IdSet(o.state.catalog) == IdSet(s.catalog) + IdSet(req.items)
              && o.response.deliveries == FanOut(o.state, req.sessions)
  {
    match req
    case NextShorts(user, count) => Outcome(s, Items(UnseenFor(s, user, count)))
    case Identify(user) => Outcome(s, Items(UnseenFor(s, user, SessionBatch)))
    case MarkSeenRequest(user, id) =>
      (match MarkSeen(s.seen, user, id)
       case Failure(e) => Outcome(s, Rejected(e))
       case Success(seen') => Outcome(s.(seen := seen'), Ack))
    case AdminPush(items, sessions) =>
      PushAllSpec(s.catalog, items);
      var s' := s.(catalog := PushAll(s.catalog, items));
      Outcome(s', Pushed(|items|, FanOut(s', sessions)))
  }

  /** The server starts with a catalog of distinct ids. */
  lemma InitialCatalogDistinct()
    ensures DistinctIds(InitialState.catalog)
  {
    assert InitialCatalog[0].id == "vid1" && InitialCatalog[1].id == "vid2";
  }

  /** Catalog ids stay distinct under every request. */
  lemma CatalogStaysDistinct(s: ServerState, req: Request)
    requires DistinctIds(s.catalog)
    ensures DistinctIds(Handle(s, req).state.catalog)
  {
    if req.AdminPush? {
      PushAllSpec(s.catalog, req.items);
    }
  }

  /** A user who has marked an id seen is never sent it again by a later
      query of any size, identify or fan-out, whatever requests come in
      between. (The model has no clock, so the 60-day expiry that would
      clear the set is not modelled.) */
  lemma SeenIdsNeverReturned(s: ServerState, reqs: seq<Request>, user: string, id: string, limit: int)
    requires id in SeenIds(s.seen, user)
    ensures id in SeenIds(Run(s, reqs).seen, user)
    ensures forall x :: x in UnseenFor(Run(s, reqs), user, limit) ==> x.id != id
  {
    SeenMonotone(s, reqs, user);
  }

  /** The state after handling `reqs` in order. */
  function Run(s: ServerState, reqs: seq<Request>): ServerState
    decreases |reqs|
  {
    if |reqs| == 0 then s else Run(Handle(s, reqs[0]).state, reqs[1..])
  }

  /** Catalog ids stay distinct over any sequence of requests, so every
      state reachable from the initial one has a distinct catalog. */
  lemma {:induction false} CatalogDistinctAfterRun(s: ServerState, reqs: seq<Request>)
    requires DistinctIds(s.catalog)
    ensures DistinctIds(Run(s, reqs).catalog)
    decreases |reqs|
  {
    if |reqs| > 0 {
      CatalogStaysDistinct(s, reqs[0]);
      CatalogDistinctAfterRun(Handle(s, reqs[0]).state, reqs[1..]);
    }
  }

  /** Seen sets only grow: no request removes an id from any user's set. */
  lemma {:induction false} SeenMonotone(s: ServerState, reqs: seq<Request>, user: string)
    ensures SeenIds(s.seen, user) <= SeenIds(Run(s, reqs).seen, user)
    decreases |reqs|
  {
    if |reqs| > 0 {
      var s1 := Handle(s, reqs[0]).state;
      assert SeenIds(s.seen, user) <= SeenIds(s1.seen, user);
      SeenMonotone(s1, reqs[1..], user);
    }
  }
}
